=== FILE: README.md ===
# Swift metadata reader, modelled in Dafny

This project models how the NativeScript iOS runtime reads its Swift
metadata file (`SwiftMetadata.h`). The file is a packed, position-independent
blob. It opens with three global lookup tables and the top-level module
table; a heap of catalog records follows, and every reference inside the
blob is a 32-bit offset from the start of that heap. The model covers:

- the offset pointer `SwiftPtrTo<T>` (null sentinel, typed and byte
  arithmetic, resolution against the heap) and its `SwiftMeta`
  specialisation;
- the common record header `SwiftMeta`: flags, record type, the two name
  flags, the owning module, and the decrement cascade of `getNameByIndex`
  that maps the three logical names onto a compacted string table;
- the type-encoding list (`SwiftTypeEncodingsList::first`,
  `SwiftTypeEncoding::next`) and the function record's link to it;
- the section chain of `SwiftMetaFile` (`SwiftGlobalTable::sizeInBytes`,
  `end()`, and `heap()`).

The whole file is a `seq<Byte>`, and an address is an index into it. Every
field read is bounds-checked and returns a `Result` (`OutOfBounds` or
`NullDereference`) instead of reading outside the file. Each reader has a
writer-side partner (`EncodeI32`, `EncodeMeta`, `NameTable`, `EncodeList`,
`FileImage`), and round-trip lemmas show that the reader finds exactly what
the writer put there. This includes a function record's `_encoding` field:
an `EncodeI32` of a non-null offset leads to the list written at that offset
(`TypeEncodings.SignatureOfRecord`).

Modules, one per file: `Wrappers` (Option/Result), `Bytes` (little-endian
fields), `Pointers` (`SwiftPtrTo`), `Meta` (`SwiftMeta`), `TypeEncodings`,
and `MetaFile` (`SwiftMetaFile` and `SwiftGlobalTable`).

Behaviour of the code worth noting:

- A record with only the native-name flag set has no null mangled name.
  `mangledName()` decrements index 2 to slot 1 and returns the native name
  (`Meta.AccessorsAlias`).
- The inline single-string form is used exactly when neither name flag is
  set. With either flag set, the table holds only the stored names, in index
  order.
- `next()` does not reject an unknown type tag. Its `default` branch steps
  over one byte for every tag.
- Resolving an offset does not check bounds in the code. The model
  computes the address unchecked (`Pointers.ValuePtr`), as the code does.
  Only the model's reads of bytes are checked.

Values defined in `Metadata.h` are assumed; that file is not part of this
model:

- `MetaTypeMask = 0x7`, `MetaFlags::HasName = 7`.
- `NameIndex::Name = 1` and `NameIndex::DemangledName = 2`.
- `ArrayCount` is `int32_t`.
- `Array<T>::sizeInBytes() = 4 + count * sizeof(T)`. The sum is computed in
  the unsigned `size_t` of `sizeof` and narrowed to the 32-bit `int` it is
  returned as, so a large count wraps instead of overflowing.
- `ModuleTable::sizeInBytes()` is the `sizeInBytes()` of its one field, an
  array of 4-byte offset pointers, like `SwiftGlobalTable::sizeInBytes()`.
- `offset(p, n)` is `p` plus `n` bytes.

Multi-byte fields are little-endian, as on every iOS target.

## Model

| member | source | states |
|---|---|---|
| Bytes.ReadU16 | NativeScript/runtime/Swift/SwiftMetadata.h:253 | the `uint16_t` flags field reads successfully exactly when its two bytes lie inside the file, and yields a value below 2^16 |
| Bytes.ReadI32 | NativeScript/runtime/Swift/SwiftMetadata.h:153-154 | an `int32_t` field reads successfully exactly when its four bytes lie inside the file |
| Bytes.DecodeEncodeI32 | NativeScript/runtime/Swift/SwiftMetadata.h:153-154 | decoding the four bytes written for any `int32_t`, negative offsets included, gives it back |
| Bytes.DecodeEncodeU16 | NativeScript/runtime/Swift/SwiftMetadata.h:253 | decoding the two bytes written for a `uint16_t` flags word gives it back |
| Bytes.FromToLittleEndian | NativeScript/runtime/Swift/SwiftMetadata.h:153-154 | any value below 256^width survives little-endian encoding and decoding |
| Bytes.ReadI32sOfEncoded | NativeScript/runtime/Swift/SwiftMetadata.h:191-193 | in an array of `int32_t` stored at `at`, the field at `at + 4*i` reads element `i` |
| Pointers.Narrow32 | NativeScript/runtime/Swift/SwiftMetadata.h:362-364 | the narrowing to `int32_t` always lands in the signed 32-bit range and is the identity on values that fit |
| Pointers.Narrow32Residue | NativeScript/runtime/Swift/SwiftMetadata.h:362-364 | the narrowing keeps the residue modulo 2^32 |
| Pointers.Add | NativeScript/runtime/Swift/SwiftMetadata.h:362-364 | a typed step moves the offset by `n * sizeof(T)` modulo 2^32, and by exactly that much when the sum fits in 32 bits |
| Pointers.AddBytes | NativeScript/runtime/Swift/SwiftMetadata.h:168-170 | a byte step moves the offset by exactly `n` |
| Pointers.IsNull | NativeScript/runtime/Swift/SwiftMetadata.h:156-158 | `isNull()` holds for exactly one pointer, the one with offset 0 |
| Pointers.ValuePtr | NativeScript/runtime/Swift/SwiftMetadata.h:175-177 | resolution yields null exactly for offset 0, and otherwise an address `offset` bytes past the heap base |
| Pointers.AddZeroIsIdentity | NativeScript/runtime/Swift/SwiftMetadata.h:165-170 | stepping by zero elements or zero bytes leaves the pointer unchanged |
| Pointers.AddIsScaledAddBytes | NativeScript/runtime/Swift/SwiftMetadata.h:165-170 | `add(n)` equals `addBytes(n * sizeof(T))` |
| Pointers.Narrow32Shift | NativeScript/runtime/Swift/SwiftMetadata.h:362-364 | adding any whole multiple of 2^32 leaves the narrowed `int32_t` unchanged |
| Pointers.Narrow32Congruent | NativeScript/runtime/Swift/SwiftMetadata.h:362-364 | two integers of the same residue modulo 2^32 narrow to the same `int32_t` |
| Pointers.AddComposes | NativeScript/runtime/Swift/SwiftMetadata.h:165-167 | two typed steps compose into one for every input, wrap-arounds included |
| Pointers.AddBytesUndo | NativeScript/runtime/Swift/SwiftMetadata.h:168-170 | a byte step is undone by its negation |
| Pointers.ValuePtrOfAddBytes | NativeScript/runtime/Swift/SwiftMetadata.h:168-177 | pointer arithmetic commutes with resolution: `addBytes(n)` resolves `n` bytes further into the heap |
| Pointers.ValuePtrInjective | NativeScript/runtime/Swift/SwiftMetadata.h:175-177 | distinct non-null offsets resolve to distinct addresses, in both directions |
| Meta.Flag | NativeScript/runtime/Swift/SwiftMetadata.h:279-281 | `flag(i)` is true exactly when `i` names one of the 16 flag bits and that bit is set |
| Meta.Type | NativeScript/runtime/Swift/SwiftMetadata.h:262-265 | the record type never exceeds the mask, and its bits are exactly the flags' bits under the mask |
| Meta.HasName | NativeScript/runtime/Swift/SwiftMetadata.h:267-269 | `hasName()` is bit 7 of the flags |
| Meta.HasMangledName | NativeScript/runtime/Swift/SwiftMetadata.h:271-273 | `hasMangledName()` is bit 8 of the flags |
| Meta.TopLevelModule | NativeScript/runtime/Swift/SwiftMetadata.h:275-277 | the owning module is null exactly when its offset is 0, and otherwise lies that many bytes into the heap |
| Meta.FlipChangesOneFlag | NativeScript/runtime/Swift/SwiftMetadata.h:279-281 | inverting one flag bit changes that flag and no other |
| Meta.FlipOutsideMaskKeepsType | NativeScript/runtime/Swift/SwiftMetadata.h:262-273 | bits outside the type mask, the two name flags among them, never change a record's type |
| Meta.IndexValue | NativeScript/runtime/Swift/SwiftMetadata.h:184-189 | each name kind's enumerator value is its position in declaration order (0, 1, 2), below `SwiftNameIndexCount` |
| Meta.SlotOf | NativeScript/runtime/Swift/SwiftMetadata.h:296-309 | the inline string is read exactly when neither name flag is set; otherwise the slot lies between 0 and the logical index |
| Meta.RankValues | NativeScript/runtime/Swift/SwiftMetadata.h:191-198 | the reference placement (stored kinds in index order) puts the JS name at 0, the native name after it, then the mangled name, and the table holds one entry per stored kind |
| Meta.SlotIsRank | NativeScript/runtime/Swift/SwiftMetadata.h:296-309 | the decrement cascade agrees with the reference placement for every kind and every flag combination, and never reads past the compacted table |
| Meta.StoredKindsReadDistinctSlots | NativeScript/runtime/Swift/SwiftMetadata.h:296-309 | two different stored names never share a slot, so lookups of stored names do not alias |
| Meta.BothFlagsReadOwnSlots | NativeScript/runtime/Swift/SwiftMetadata.h:302-308 | with both flags set no decrement happens: each name reads its own slot 0, 1 or 2 |
| Meta.AbsentKindAliasesPredecessor | NativeScript/runtime/Swift/SwiftMetadata.h:302-308 | an absent name reads the slot of the kind before it (no mangled name reads slot 1, no native name reads slot 0) |
| Meta.GetNameByIndex | NativeScript/runtime/Swift/SwiftMetadata.h:296-310 | with neither name flag the name field itself is the string; otherwise a null name field is a null dereference, and a non-null one yields the table entry at the kind's reference placement |
| Meta.JsName | NativeScript/runtime/Swift/SwiftMetadata.h:283-285 | `jsName()` is the inline string, or table entry 0 |
| Meta.NativeName | NativeScript/runtime/Swift/SwiftMetadata.h:287-289 | `name()` is the inline string, or table entry 1 when the native name is stored and entry 0 when it is not |
| Meta.MangledNameOf | NativeScript/runtime/Swift/SwiftMetadata.h:291-293 | `mangledName()` is the inline string, or the table entry after the stored names that precede it: 0, 1 or 2 |
| Meta.InlineNamesCoincide | NativeScript/runtime/Swift/SwiftMetadata.h:283-300 | with neither name flag, `jsName()`, `name()` and `mangledName()` all yield the one inline string |
| Meta.AccessorsAlias | NativeScript/runtime/Swift/SwiftMetadata.h:283-310 | with only the native name, `mangledName()` equals `name()`; with only the mangled name, `name()` equals `jsName()` |
| Meta.NameTableAtRank | NativeScript/runtime/Swift/SwiftMetadata.h:191-198 | in the compacted table a writer emits, a stored kind's rank indexes that kind's string |
| Meta.NamesRoundTrip | NativeScript/runtime/Swift/SwiftMetadata.h:283-310 | every name the writer stored is what its accessor yields, and an absent name yields its predecessor's string |
| Meta.TableNameRoundTrip | NativeScript/runtime/Swift/SwiftMetadata.h:296-310 | in the table form, the slot the cascade picks holds the string stored for that kind |
| Meta.TableSlotReads | NativeScript/runtime/Swift/SwiftMetadata.h:310 | a table-form accessor dereferences the name field and resolves the string in the chosen slot |
| Meta.DecodeMeta | NativeScript/runtime/Swift/SwiftMetadata.h:249-253 | a header decodes exactly when its ten packed bytes lie inside the file |
| Meta.EncodeMeta | NativeScript/runtime/Swift/SwiftMetadata.h:249-253 | a header occupies `sizeof(SwiftMeta)` = 10 bytes |
| Meta.DecodeEncodeMeta | NativeScript/runtime/Swift/SwiftMetadata.h:249-253 | a header written anywhere in a file decodes to the same names, module and flags |
| Meta.MetaAt | NativeScript/runtime/Swift/SwiftMetadata.h:372-384 | `value()` of a null record pointer is a null dereference |
| Meta.MetaAtStep | NativeScript/runtime/Swift/SwiftMetadata.h:356-384 | for headers stored back to back, `p + i` designates header `i` |
| TypeEncodings.TypeOfTag | NativeScript/runtime/Swift/SwiftMetadata.h:26-31 | every tag byte has exactly one reading, and the reading maps back to the byte |
| TypeEncodings.TypeOfTagOf | NativeScript/runtime/Swift/SwiftMetadata.h:26-31 | the byte of a well-formed encoding kind reads back as that kind |
| TypeEncodings.First | NativeScript/runtime/Swift/SwiftMetadata.h:204-206 | the first node sits `sizeof(T)` bytes after the list's count field |
| TypeEncodings.Next | NativeScript/runtime/Swift/SwiftMetadata.h:227-245 | `next()` succeeds exactly on a node inside the file and steps over one byte for every tag, unlisted tags included |
| TypeEncodings.Advance | NativeScript/runtime/Swift/SwiftMetadata.h:227-245 | `n` calls of `next()` succeed exactly when the `n` bytes lie in the file, and they advance `n` bytes |
| TypeEncodings.DecodeNodes | NativeScript/runtime/Swift/SwiftMetadata.h:227-245 | visiting `n` nodes yields `n` kinds, each the reading of its own tag byte |
| TypeEncodings.DecodeList | NativeScript/runtime/Swift/SwiftMetadata.h:200-206 | a list yields as many nodes as its count (none for a negative count), and ends where `count` steps from `first()` end |
| TypeEncodings.WalkList | NativeScript/runtime/Swift/SwiftMetadata.h:227-245 | the cursor walk `current = current->next()`, once per node, fails exactly when the decoded list fails and otherwise returns the same kinds and end |
| TypeEncodings.EncodeList | NativeScript/runtime/Swift/SwiftMetadata.h:200-206 | a written list is the count field plus one byte per node |
| TypeEncodings.NodesBetween | NativeScript/runtime/Swift/SwiftMetadata.h:227-245 | tags written between arbitrary bytes decode to the kinds they were written for |
| TypeEncodings.ListRoundTrip | NativeScript/runtime/Swift/SwiftMetadata.h:200-206 | decoding a written list gives back its kinds, ending `count` bytes past `first()` |
| TypeEncodings.Encodings | NativeScript/runtime/Swift/SwiftMetadata.h:387-396 | `encodings()` reads the offset stored right after the header and resolves it, null for offset 0 |
| TypeEncodings.FunctionSignature | NativeScript/runtime/Swift/SwiftMetadata.h:387-396 | a function record whose encoding offset is null has no signature to walk |
| TypeEncodings.SignatureOfRecord | NativeScript/runtime/Swift/SwiftMetadata.h:387-396 | a function record whose `_encoding` field holds a non-null offset yields the signature list written at that offset from the heap, with its kinds and end |
| MetaFile.ArraySizeInBytes | NativeScript/runtime/Swift/SwiftMetadata.h:111-113 | an array's size is its count field plus `count` elements whenever that fits the 32-bit `int` it is returned in |
| MetaFile.TableSizeInBytes | NativeScript/runtime/Swift/SwiftMetadata.h:111-113 | a table's size is readable exactly when the count lies in the file, and is the count field plus four bytes per pointer when that fits an `int` |
| MetaFile.LargeCountWraps | NativeScript/runtime/Swift/SwiftMetadata.h:111-113 | a count of 2^29 pointers wraps the 32-bit size to a negative number |
| MetaFile.After | NativeScript/runtime/Swift/SwiftMetadata.h:129-148 | the next section's start is known exactly when the current table's count field is readable |
| MetaFile.GlobalTableJs | NativeScript/runtime/Swift/SwiftMetadata.h:125-127 | `globalTableJs()` is the file object's first field, at position 0 |
| MetaFile.GlobalTableNativeProtocols | NativeScript/runtime/Swift/SwiftMetadata.h:129-132 | the protocols table is found exactly when the JS-name table's count field (at `GlobalTableJs`, position 0) lies in the file |
| MetaFile.GlobalTableNativeInterfaces | NativeScript/runtime/Swift/SwiftMetadata.h:134-137 | the interfaces table is found exactly when the protocols table is found and its count field lies in the file |
| MetaFile.TopLevelModulesTable | NativeScript/runtime/Swift/SwiftMetadata.h:139-142 | the module table is found exactly when the interfaces table is found and its count field lies in the file |
| MetaFile.Heap | NativeScript/runtime/Swift/SwiftMetadata.h:144-148 | the heap is found exactly when the module table is found and its count field lies in the file |
| MetaFile.Resolve | NativeScript/runtime/Swift/SwiftMetadata.h:175-177 | resolution against the file's own heap succeeds exactly when the section chain is readable, and then equals `valuePtr` against that heap |
| MetaFile.End | NativeScript/runtime/Swift/SwiftMetadata.h:91-93 | `end()` is readable exactly when the count field is, and starts at bucket slot 0 (see "Left out" for `findNext()`) |
| MetaFile.SectionsAscend | NativeScript/runtime/Swift/SwiftMetadata.h:125-148 | each section starts where the previous one ends, and with counts whose sizes fit an `int` the sections lie in file order, each at least a count field long |
| MetaFile.TableImage | NativeScript/runtime/Swift/SwiftMetadata.h:111-113 | a written table is as long as its `sizeInBytes()` |
| MetaFile.ReadTableAt | NativeScript/runtime/Swift/SwiftMetadata.h:91-113 | a table whose count field holds `n` (below 2^29 - 1) reports size `4 + 4n` and the end cursor `(n, 0)` |
| MetaFile.CountOfImage | NativeScript/runtime/Swift/SwiftMetadata.h:97 | a table written anywhere in a file has its count field at the table's start |
| MetaFile.PartsOfImage | NativeScript/runtime/Swift/SwiftMetadata.h:116-148 | a written file holds each table's count field at its chained start and ends with the heap |
| MetaFile.SectionChain | NativeScript/runtime/Swift/SwiftMetadata.h:125-148 | four table ends, found one after another, fix every section start and the heap |
| MetaFile.TableEnds | NativeScript/runtime/Swift/SwiftMetadata.h:91-113 | each of four count fields yields its table's end and end cursor |
| MetaFile.LayoutOfCounts | NativeScript/runtime/Swift/SwiftMetadata.h:125-148 | given the four count fields, the reader finds every section, the heap and each table's end cursor |
| MetaFile.LayoutOfImage | NativeScript/runtime/Swift/SwiftMetadata.h:116-148 | in a written file the reader finds every section, and the heap, where the writer put them |
| MetaFile.ResolveInImage | NativeScript/runtime/Swift/SwiftMetadata.h:175-177 | every offset in a written file resolves against the byte just after the module table |

## Left out

- `SwiftGlobalTable::findMeta` (both overloads), `compareName` and the iterator's `findNext`, `getCurrent`, `operator==`, `operator!=`, `operator++` and `operator*`: only declared in this header, so they have no behaviour to model. The bucket hash they rely on is not part of this model either.
- MetaFile.End: the constructor `end()` goes through also calls `findNext()`, whose body is not part of this model. The model assumes it leaves the cursor `(buckets.count, 0)` unchanged, as a cursor past the last bucket suggests.
- `SwiftGlobalTable::begin()`: it builds the iterator through a delegating constructor. Both that constructor and the one it delegates to call `findNext()`, so `findNext` runs twice. Without the body of `findNext` the effect cannot be stated; only `end()` is modelled.
- `SwiftMetaFile::instance()` and `setInstance()`: a process-wide singleton. The model passes the heap base, or the whole file, explicitly.
- `castTo()`: a reinterpretation of the same 32-bit offset under another type. It has no behaviour beyond the unchanged offset.
- `SwiftPtrTo<ArrayOfSwiftPtrTo<SwiftMeta>>`: its `isNull` and `valuePtr` behave as the generic ones and are modelled by the same `Ptr`. Its arithmetic is commented out in the source.
- The commented-out pointer and function-pointer cases of `next()`, and the unused members of `SwiftTypeEncodingDetails`: they do not take part in any live code path.
- `value()` for pointee types defined in `Metadata.h` (`ModuleMeta`, `Array<T>` of other element types): those layouts are not part of this model. Only the address is modelled (`Meta.TopLevelModule`).
- Pointers.AddBytes: requires the new offset to fit in 32 bits. In the source, signed `int` overflow is undefined behaviour, not a wrap-around.
- Pointers.AddIsScaledAddBytes: requires the sum to fit in 32 bits, because `addBytes` is only defined there. `Add` itself models the truncation for every input, and `Pointers.AddComposes` holds for every input.
- Meta.MetaAtStep: requires the step's sum to fit in 32 bits. `add` on the `SwiftMeta` pointer is defined for every input, but a step that wraps lands at the narrowed offset, not at header `i`.
- MetaFile.SectionsAscend, MetaFile.ReadTableAt, MetaFile.TableEnds, MetaFile.LayoutOfCounts, and `MetaFile.FileImage` with the lemmas over it: file order and the size `4 + 4n` are stated only for counts whose size `4 + 4n` fits a 32-bit `int` (`CountFits`, `TableFits`), that is below 2^29 - 1. For larger counts the size wraps (`MetaFile.LargeCountWraps`), and the reader would look for the next section at a wrapped position.
- Meta.Flag: indices from 16 to 31 yield false, as the source's 32-bit `int` test does on a 16-bit flags word. Indices of 32 and above, and negative ones, are undefined shifts in the source and are excluded by the index type.
- The program that writes the metadata file is not part of this model. The writer-side functions here (`EncodeMeta`, `NameTable`, `EncodeList`, `FileImage`) lay out exactly what the reader expects, as stand-ins for it.
- The record-type values `SwiftUndefined`, `SwiftStruct` and `SwiftFunction`: the reader only masks the type out of the flags and never compares it with them, so `Meta.Type` stops at the masked value. `SwiftMetaType` has the values 0 to 3 only, so the cast of a masked value from 4 to 7 is undefined in C++17; the model returns such a value unchanged.
- Byte order and packing: little-endian fields with `#pragma pack(1)` are assumed, so structure sizes are the sums of their fields.

=== FILE: bytes.dfy ===
/**
 The metadata file as an immutable byte sequence, and the fixed-width
 little-endian fields read from it (an `int32_t` offset or count, a
 `uint16_t` flags word). Every read is bounds-checked and fails with a
 format error instead of reading outside the file.
 */
module Bytes {
  import opened Wrappers

  type Byte = b: int | 0 <= b < 0x100

  predicate IsInt32(x: int) {
    -0x8000_0000 <= x < 0x8000_0000
  }

  type Int32 = x: int | -0x8000_0000 <= x < 0x8000_0000

  /** The ways decoding the metadata file can fail. */
  datatype FormatError =
    | OutOfBounds(at: int, width: nat)   // a field would be read outside the file
    | NullDereference                    // `value()` of a null offset pointer

  type Read<T> = Result<T, FormatError>

  predicate InBounds(file: seq<Byte>, at: int, width: nat) {
    0 <= at && at + width <= |file|
  }

  /** The `width` bytes at `at`, or the out-of-bounds error a read there meets. */
  function Field(file: seq<Byte>, at: int, width: nat): (r: Read<seq<Byte>>)
    ensures r.Ok? <==> InBounds(file, at, width)
    ensures r.Ok? ==> |r.value| == width
    ensures r.Ok? ==> forall j :: 0 <= j < width ==> r.value[j] == file[at + j]
  {
    if InBounds(file, at, width) then Ok(file[at..at + width]) else Err(OutOfBounds(at, width))
  }

  /** A `uint8_t` at `at`. */
  function ReadU8(file: seq<Byte>, at: int): (r: Read<Byte>)
    ensures r.Ok? <==> InBounds(file, at, 1)
    ensures r.Ok? ==> r.value == file[at]
  {
    var w :- Field(file, at, 1);
    Ok(w[0])
  }

  function Pow256(n: nat): (p: nat)
    ensures p >= 1
  {
    if n == 0 then 1 else 0x100 * Pow256(n - 1)
  }

  /** The unsigned value of little-endian bytes. */
  function FromLittleEndian(w: seq<Byte>): (u: nat)
    ensures u < Pow256(|w|)
  {
    if w == [] then 0
    else
      var rest := FromLittleEndian(w[1..]);
      assert w[0] + 0x100 * rest <= 0xFF + 0x100 * (Pow256(|w| - 1) - 1);
      w[0] + 0x100 * rest
  }

  /** The `width` little-endian bytes of `u`, least significant first. */
  function ToLittleEndian(u: nat, width: nat): (w: seq<Byte>)
    ensures |w| == width
  {
    if width == 0 then [] else [(u % 0x100) as Byte] + ToLittleEndian(u / 0x100, width - 1)
  }

  /** Little-endian round trip: a value that fits in `width` bytes is recovered. */
  lemma {:induction false} FromToLittleEndian(u: nat, width: nat)
    requires u < Pow256(width)
    ensures FromLittleEndian(ToLittleEndian(u, width)) == u
  {
    if width > 0 {
      var w := ToLittleEndian(u, width);
      assert w[1..] == ToLittleEndian(u / 0x100, width - 1);
      assert u / 0x100 < Pow256(width - 1);
      FromToLittleEndian(u / 0x100, width - 1);
    }
  }

  lemma Pow256Values()
    ensures Pow256(2) == 0x1_0000 && Pow256(4) == 0x1_0000_0000
  {
  }

  /** The unsigned value of a `uint16_t`'s two bytes. */
  function DecodeU16(w: seq<Byte>): (x: int)
    requires |w| == 2
    ensures 0 <= x < 0x1_0000
  {
    Pow256Values();
    FromLittleEndian(w)
  }

  /** The two's-complement value of an `int32_t`'s four bytes. */
  function DecodeI32(w: seq<Byte>): Int32
    requires |w| == 4
  {
    Pow256Values();
    var u := FromLittleEndian(w);
    if u < 0x8000_0000 then u else u - 0x1_0000_0000
  }

  /** The bytes a writer stores for a `uint16_t`. */
  function EncodeU16(x: int): (w: seq<Byte>)
    requires 0 <= x < 0x1_0000
    ensures |w| == 2
  {
    ToLittleEndian(x, 2)
  }

  /** The bytes a writer stores for an `int32_t`: its two's-complement bit pattern. */
  function EncodeI32(x: Int32): (w: seq<Byte>)
    ensures |w| == 4
  {
    ToLittleEndian(if x < 0 then x as int + 0x1_0000_0000 else x as int, 4)
  }

  lemma DecodeEncodeU16(x: int)
    requires 0 <= x < 0x1_0000
    ensures DecodeU16(EncodeU16(x)) == x
  {
    Pow256Values();
    FromToLittleEndian(x, 2);
  }

  lemma DecodeEncodeI32(x: Int32)
    ensures DecodeI32(EncodeI32(x)) == x
  {
    Pow256Values();
    FromToLittleEndian(if x < 0 then x as int + 0x1_0000_0000 else x as int, 4);
  }

  /** A little-endian `uint16_t` at `at`. */
  function ReadU16(file: seq<Byte>, at: int): (r: Read<int>)
    ensures r.Ok? <==> InBounds(file, at, 2)
    ensures r.Ok? ==> 0 <= r.value < 0x1_0000
  {
    var w :- Field(file, at, 2);
    Ok(DecodeU16(w))
  }

  /** A little-endian two's-complement `int32_t` at `at`. */
  function ReadI32(file: seq<Byte>, at: int): (r: Read<Int32>)
    ensures r.Ok? <==> InBounds(file, at, 4)
  {
    var w :- Field(file, at, 4);
    Ok(DecodeI32(w))
  }

  /** Consecutive `int32_t` values, as in an array of offset pointers. */
  function EncodeI32s(xs: seq<Int32>): (w: seq<Byte>)
    ensures |w| == 4 * |xs|
  {
    if xs == [] then [] else EncodeI32(xs[0]) + EncodeI32s(xs[1..])
  }

  /** Reading a `uint16_t` returns what the writer stored. */
  lemma ReadU16OfEncoded(file: seq<Byte>, at: int, x: int)
    requires 0 <= x < 0x1_0000
    requires InBounds(file, at, 2) && file[at..at + 2] == EncodeU16(x)
    ensures ReadU16(file, at) == Ok(x)
  {
    DecodeEncodeU16(x);
  }

  /** Reading an `int32_t` returns what the writer stored. */
  lemma ReadI32OfEncoded(file: seq<Byte>, at: int, x: Int32)
    requires InBounds(file, at, 4) && file[at..at + 4] == EncodeI32(x)
    ensures ReadI32(file, at) == Ok(x)
  {
    DecodeEncodeI32(x);
  }

  /** An encoded array splits around its `i`-th element. */
  lemma {:induction false} EncodeI32sSplit(xs: seq<Int32>, i: nat)
    requires i < |xs|
    ensures EncodeI32s(xs) == EncodeI32s(xs[..i]) + EncodeI32(xs[i]) + EncodeI32s(xs[i + 1..])
  {
    if i > 0 {
      EncodeI32sSplit(xs[1..], i - 1);
      assert xs[1..][..i - 1] == xs[1..i];
      assert xs[1..][i - 1] == xs[i];
      assert xs[1..][i..] == xs[i + 1..];
      assert xs[..i] == [xs[0]] + xs[1..i];
      assert EncodeI32s(xs[..i]) == EncodeI32(xs[0]) + EncodeI32s(xs[1..i]);
    } else {
      assert xs[..0] == [] && xs[1..] == xs[i + 1..];
    }
  }

  lemma Regroup(a: seq<Byte>, b: seq<Byte>, c: seq<Byte>, d: seq<Byte>, e: seq<Byte>)
    ensures a + (b + c + d) + e == (a + b) + c + (d + e)
  {
  }

  /** Reading element `i` of an array encoded after `pre` returns `xs[i]`. */
  lemma ReadI32sBetween(pre: seq<Byte>, xs: seq<Int32>, post: seq<Byte>, i: nat)
    requires i < |xs|
    ensures ReadI32(pre + EncodeI32s(xs) + post, |pre| + 4 * i) == Ok(xs[i])
  {
    EncodeI32sSplit(xs, i);
    var b, c, d := EncodeI32s(xs[..i]), EncodeI32(xs[i]), EncodeI32s(xs[i + 1..]);
    Regroup(pre, b, c, d, post);
    ReadI32Between(pre + b, xs[i], d + post);
  }

  lemma SplitAround(s: seq<Byte>, a: nat, b: nat)
    requires a <= b <= |s|
    ensures s == s[..a] + s[a..b] + s[b..]
  {
  }

  /** Reading element `i` of an encoded array stored at `at` returns `xs[i]`. */
  lemma ReadI32sOfEncoded(file: seq<Byte>, at: int, xs: seq<Int32>, i: nat)
    requires i < |xs|
    requires InBounds(file, at, 4 * |xs|) && file[at..at + 4 * |xs|] == EncodeI32s(xs)
    ensures ReadI32(file, at + 4 * i) == Ok(xs[i])
  {
    var n := 4 * |xs|;
    SplitAround(file, at, at + n);
    ReadI32sBetween(file[..at], xs, file[at + n..], i);
  }

  /** A value encoded between two arbitrary byte runs reads back at the first run's end. */
  lemma ReadI32Between(pre: seq<Byte>, x: Int32, post: seq<Byte>)
    ensures ReadI32(pre + EncodeI32(x) + post, |pre|) == Ok(x)
  {
    var file := pre + EncodeI32(x) + post;
    assert file[|pre|..|pre| + 4] == EncodeI32(x);
    ReadI32OfEncoded(file, |pre|, x);
  }
}

=== FILE: meta.dfy ===
/**
 `SwiftMeta`: the common header of every catalog record — a name field, an
 offset to the owning top-level module, and a 16-bit flags word whose low
 bits are the record type and whose high bits say which names are stored.

 The name field holds either one inline string (when the record stores only
 its JS name) or an offset to a compacted table of strings: the JS name,
 then the native name if stored, then the mangled name if stored. The three
 accessors map their logical index onto that table by a cascade of guarded
 decrements.
 */
module Meta {
  import opened Wrappers
  import opened Bytes
  import opened Pointers

  // Values taken from Metadata.h, which is not part of this model.
  const MetaTypeMask: bv16 := 0x0007   // the record-type bits of the flags
  const HasNameBit: FlagIndex := 7     // MetaFlags::HasName
  const Name: nat := 1                 // NameIndex::Name, assumed equal to SwiftName
  const DemangledName: nat := 2        // NameIndex::DemangledName, assumed equal to MangledName

  // SwiftMetaFlags
  const HasMangledNameBit: FlagIndex := 8

  datatype SwiftMeta = SwiftMeta(names: Ptr, topLevelModule: Ptr, flags: bv16)

  /** A shift count for which `1 << index` on a 32-bit `int` is defined (0 to 31). */
  type FlagIndex = i: bv8 | i < 32

  /** Bit `j` of a flags word, as a reference reading independent of the masks the source uses. */
  predicate Bit(x: bv16, j: FlagIndex)
    requires j < 16
  {
    (x >> j) & 1 == 1
  }

  /** `flag(index)`: the flags word, promoted to `int`, masked with `1 << index`. */
  function Flag(m: SwiftMeta, index: FlagIndex): (r: bool)
    ensures r <==> index < 16 && Bit(m.flags, index)
  {
    index < 16 && m.flags & (1 << index) != 0
  }

  /** `type()`: the flags restricted to the type mask. */
  function Type(m: SwiftMeta): (t: bv16)
    ensures t <= MetaTypeMask
    ensures forall j: FlagIndex :: j < 16 ==> (Bit(t, j) <==> Bit(MetaTypeMask, j) && Bit(m.flags, j))
  {
    m.flags & MetaTypeMask
  }

  function HasName(m: SwiftMeta): (r: bool)
    ensures r <==> Bit(m.flags, HasNameBit)
  {
    Flag(m, HasNameBit)
  }

  function HasMangledName(m: SwiftMeta): (r: bool)
    ensures r <==> Bit(m.flags, HasMangledNameBit)
  {
    Flag(m, HasMangledNameBit)
  }

  /** `topLevelModule()`: the owning module, null when the offset is 0. */
  function TopLevelModule(m: SwiftMeta, heap: int): (r: Option<int>)
    ensures r.None? <==> IsNull(m.topLevelModule)
    ensures r.Some? ==> r.value == heap + m.topLevelModule.offset
  {
    ValuePtr(m.topLevelModule, heap)
  }

  /** The record with bit `j` of its flags inverted. */
  function FlipFlag(m: SwiftMeta, j: FlagIndex): SwiftMeta
    requires j < 16
  {
    m.(flags := m.flags ^ (1 << j))
  }

  /** Inverting one bit changes exactly that flag. */
  lemma FlipChangesOneFlag(m: SwiftMeta, j: FlagIndex, k: FlagIndex)
    requires j < 16
    ensures Flag(FlipFlag(m, j), k) == (if k == j then !Flag(m, k) else Flag(m, k))
  {
  }

  /** A bit outside the type mask does not take part in `type()`; in particular
      the two name flags never change a record's type. */
  lemma FlipOutsideMaskKeepsType(m: SwiftMeta, j: FlagIndex)
    requires j < 16 && !Bit(MetaTypeMask, j)
    ensures Type(FlipFlag(m, j)) == Type(m)
    ensures Type(FlipFlag(m, HasNameBit)) == Type(m)
    ensures Type(FlipFlag(m, HasMangledNameBit)) == Type(m)
  {
  }

  // ---------------------------------------------------------------------------
  // Names

  /** `SwiftNameIndex`: the logical index of each name kind. */
  datatype SwiftNameIndex = SwiftJsName | SwiftName | MangledName

  const SwiftNameIndexCount: nat := 3

  /** The enumerator value `int i = index` reads: declaration order from 0. */
  function IndexValue(k: SwiftNameIndex): (i: nat)
    ensures i < SwiftNameIndexCount && AllKinds[i] == k
  {
    match k
    case SwiftJsName => 0
    case SwiftName => 1
    case MangledName => 2
  }

  /** Where an accessor reads its string: the inline name, or a slot of the table. */
  datatype NameSlot = Inline | TableSlot(slot: int)

  /** The index computation of `getNameByIndex`. Every decrement is guarded by a
      threshold of at least 1, so the slot never leaves [0, index]. */
  function SlotOf(m: SwiftMeta, k: SwiftNameIndex): (s: NameSlot)
    ensures s.Inline? <==> !HasName(m) && !HasMangledName(m)
    ensures s.TableSlot? ==> 0 <= s.slot <= IndexValue(k) < SwiftNameIndexCount
  {
    var i := IndexValue(k);
    if !HasName(m) && !HasMangledName(m) then Inline
    else
      var i := if !HasMangledName(m) && i >= DemangledName then i - 1 else i;
      var i := if !HasName(m) && i >= Name then i - 1 else i;
      TableSlot(i)
  }

  /** Whether the record stores a string of kind `k`; the JS name is always stored. */
  predicate Stored(m: SwiftMeta, k: SwiftNameIndex) {
    match k
    case SwiftJsName => true
    case SwiftName => HasName(m)
    case MangledName => HasMangledName(m)
  }

  const AllKinds: seq<SwiftNameIndex> := [SwiftJsName, SwiftName, MangledName]

  /** How many of `ks` the record stores. */
  function CountStored(m: SwiftMeta, ks: seq<SwiftNameIndex>): nat {
    if ks == [] then 0 else (if Stored(m, ks[0]) then 1 else 0) + CountStored(m, ks[1..])
  }

  /** Reference placement: the table lists the stored kinds in index order, so a
      kind's slot is the number of stored kinds up to and including it, minus one. */
  function Rank(m: SwiftMeta, k: SwiftNameIndex): int {
    CountStored(m, AllKinds[..IndexValue(k) + 1]) - 1
  }

  /** The reference placement, counted out for each kind. */
  lemma RankValues(m: SwiftMeta)
    ensures Rank(m, SwiftJsName) == 0
    ensures Rank(m, SwiftName) == (if HasName(m) then 1 else 0)
    ensures Rank(m, MangledName) == (if HasName(m) then 1 else 0) + (if HasMangledName(m) then 1 else 0)
    ensures CountStored(m, AllKinds) == 1 + Rank(m, MangledName)
  {
    var one, two := AllKinds[..1], AllKinds[..2];
    assert one == [SwiftJsName] && one[1..] == [];
    assert CountStored(m, one) == 1;
    assert two == [SwiftJsName, SwiftName] && two[1..] == [SwiftName] && two[1..][1..] == [];
    assert CountStored(m, two[1..]) == (if HasName(m) then 1 else 0);
    assert AllKinds[..3] == AllKinds;
    var tail := AllKinds[1..];
    assert tail == [SwiftName, MangledName] && tail[1..] == [MangledName] && tail[1..][1..] == [];
    assert CountStored(m, tail[1..]) == (if HasMangledName(m) then 1 else 0);
    assert CountStored(m, tail) == (if HasName(m) then 1 else 0) + (if HasMangledName(m) then 1 else 0);
    assert CountStored(m, AllKinds) == 1 + CountStored(m, tail);
  }

  /** The decrement cascade agrees with the reference placement, and it only
      ever reads the slots the compacted table actually has. */
  lemma SlotIsRank(m: SwiftMeta, k: SwiftNameIndex)
    requires HasName(m) || HasMangledName(m)
    ensures SlotOf(m, k) == TableSlot(Rank(m, k))
    ensures 0 <= Rank(m, k) < CountStored(m, AllKinds)
  {
    RankValues(m);
  }

  /** Two different stored kinds never share a slot. */
  lemma StoredKindsReadDistinctSlots(m: SwiftMeta, k1: SwiftNameIndex, k2: SwiftNameIndex)
    requires HasName(m) || HasMangledName(m)
    requires Stored(m, k1) && Stored(m, k2) && k1 != k2
    ensures SlotOf(m, k1) != SlotOf(m, k2)
  {
    SlotIsRank(m, k1);
    SlotIsRank(m, k2);
  }

  /** With both name flags set no decrement happens: slots 0, 1 and 2. */
  lemma BothFlagsReadOwnSlots(m: SwiftMeta, k: SwiftNameIndex)
    requires HasName(m) && HasMangledName(m)
    ensures SlotOf(m, k) == TableSlot(IndexValue(k))
  {
  }

  /** The kind before `k` in index order; the JS name is its own predecessor. */
  function Predecessor(k: SwiftNameIndex): SwiftNameIndex {
    match k
    case SwiftJsName => SwiftJsName
    case SwiftName => SwiftJsName
    case MangledName => SwiftName
  }

  /** An absent kind reads the slot of the kind before it: without a mangled
      name `mangledName()` reads the native name's slot, and without a native
      name `name()` reads the JS name's slot. */
  lemma AbsentKindAliasesPredecessor(m: SwiftMeta, k: SwiftNameIndex)
    requires !Stored(m, k)
    ensures SlotOf(m, k) == SlotOf(m, Predecessor(k))
    ensures HasName(m) && !HasMangledName(m) && k == MangledName ==> SlotOf(m, k) == TableSlot(1)
    ensures !HasName(m) && HasMangledName(m) && k == SwiftName ==> SlotOf(m, k) == TableSlot(0)
  {
  }

  /** Slot `i` of the name table the name field designates, as an address or null. */
  function TableEntry(file: seq<Byte>, heap: int, m: SwiftMeta, i: int): Read<Option<int>> {
    var str :- ReadI32(file, heap + m.names.offset + SizeOfOffsetPtr * i);
    Ok(ValuePtr(Ptr(str), heap))
  }

  /** `getNameByIndex`: the string an accessor yields, as an address or null.
      The inline form yields the name field itself; the table form reads the
      slot of the reference placement, and fails when the name field is null. */
  function GetNameByIndex(file: seq<Byte>, heap: int, m: SwiftMeta, k: SwiftNameIndex): (r: Read<Option<int>>)
    ensures !HasName(m) && !HasMangledName(m) ==> r == Ok(ValuePtr(m.names, heap))
    ensures (HasName(m) || HasMangledName(m)) && IsNull(m.names) ==> r == Err(NullDereference)
    ensures (HasName(m) || HasMangledName(m)) && !IsNull(m.names) ==>
      r == TableEntry(file, heap, m, Rank(m, k))
  {
    RankValues(m);
    match SlotOf(m, k)
    case Inline => Ok(ValuePtr(m.names, heap))
    case TableSlot(i) =>
      match ValuePtr(m.names, heap)
      case None => Err(NullDereference)
      case Some(table) =>
        var str :- ReadI32(file, table + SizeOfOffsetPtr * i);
        Ok(ValuePtr(Ptr(str), heap))
  }

  /** `jsName()`: always the first string, inline or in slot 0. */
  function JsName(file: seq<Byte>, heap: int, m: SwiftMeta): (r: Read<Option<int>>)
    ensures !HasName(m) && !HasMangledName(m) ==> r == Ok(ValuePtr(m.names, heap))
    ensures (HasName(m) || HasMangledName(m)) && !IsNull(m.names) ==> r == TableEntry(file, heap, m, 0)
  {
    GetNameByIndex(file, heap, m, SwiftJsName)
  }

  /** `name()`: slot 1 when the native name is stored, else the JS name's slot 0. */
  function NativeName(file: seq<Byte>, heap: int, m: SwiftMeta): (r: Read<Option<int>>)
    ensures !HasName(m) && !HasMangledName(m) ==> r == Ok(ValuePtr(m.names, heap))
    ensures (HasName(m) || HasMangledName(m)) && !IsNull(m.names) ==>
      r == TableEntry(file, heap, m, if HasName(m) then 1 else 0)
  {
    GetNameByIndex(file, heap, m, SwiftName)
  }

  /** `mangledName()`: the last stored string of the table. */
  function MangledNameOf(file: seq<Byte>, heap: int, m: SwiftMeta): (r: Read<Option<int>>)
    ensures !HasName(m) && !HasMangledName(m) ==> r == Ok(ValuePtr(m.names, heap))
    ensures (HasName(m) || HasMangledName(m)) && !IsNull(m.names) ==>
      r == TableEntry(file, heap, m, (if HasName(m) then 1 else 0) + (if HasMangledName(m) then 1 else 0))
  {
    GetNameByIndex(file, heap, m, MangledName)
  }

  /** With neither name flag, all three accessors yield the one inline string. */
  lemma InlineNamesCoincide(file: seq<Byte>, heap: int, m: SwiftMeta)
    requires !HasName(m) && !HasMangledName(m)
    ensures JsName(file, heap, m) == Ok(ValuePtr(m.names, heap))
    ensures NativeName(file, heap, m) == JsName(file, heap, m)
    ensures MangledNameOf(file, heap, m) == JsName(file, heap, m)
  {
  }

  /** The accessor-level aliasing: a record with only the native name reports it
      as its mangled name too, and one with only a mangled name reports its JS
      name as its native name. */
  lemma AccessorsAlias(file: seq<Byte>, heap: int, m: SwiftMeta)
    ensures HasName(m) && !HasMangledName(m) ==> MangledNameOf(file, heap, m) == NativeName(file, heap, m)
    ensures !HasName(m) && HasMangledName(m) ==> NativeName(file, heap, m) == JsName(file, heap, m)
  {
  }

  /** The strings a writer records for one catalog entry, as heap offsets. */
  datatype RecordNames = RecordNames(jsName: Int32, name: Option<Int32>, mangledName: Option<Int32>)

  function NameOf(n: RecordNames, k: SwiftNameIndex): Option<Int32> {
    match k
    case SwiftJsName => Some(n.jsName)
    case SwiftName => n.name
    case MangledName => n.mangledName
  }

  /** The compacted table a writer emits: stored names only, in index order. */
  function NameTable(n: RecordNames): seq<Int32> {
    [n.jsName]
    + (if n.name.Some? then [n.name.value] else [])
    + (if n.mangledName.Some? then [n.mangledName.value] else [])
  }

  /** The record's flags announce exactly the names the writer stored. */
  predicate Announces(m: SwiftMeta, n: RecordNames) {
    HasName(m) == n.name.Some? && HasMangledName(m) == n.mangledName.Some?
  }

  /** The name field of `m` holds `n` in the form its flags announce. */
  predicate NamesStored(file: seq<Byte>, heap: int, m: SwiftMeta, n: RecordNames) {
    if n.name.None? && n.mangledName.None? then m.names == Ptr(n.jsName)
    else
      var t := NameTable(n);
      && !IsNull(m.names)
      && InBounds(file, heap + m.names.offset, 4 * |t|)
      && file[heap + m.names.offset..heap + m.names.offset + 4 * |t|] == EncodeI32s(t)
  }

  /** The table entry at a stored kind's rank is that kind's string. */
  lemma NameTableAtRank(m: SwiftMeta, n: RecordNames, k: SwiftNameIndex)
    requires Announces(m, n) && NameOf(n, k).Some?
    ensures 0 <= Rank(m, k) < |NameTable(n)|
    ensures NameTable(n)[Rank(m, k)] == NameOf(n, k).value
  {
    RankValues(m);
  }

  /** Names round trip: every name the writer stored is what its accessor
      yields, and an absent name yields its predecessor's string. */
  lemma NamesRoundTrip(file: seq<Byte>, heap: int, m: SwiftMeta, n: RecordNames, k: SwiftNameIndex)
    requires Announces(m, n) && NamesStored(file, heap, m, n)
    ensures NameOf(n, k).Some? ==>
      GetNameByIndex(file, heap, m, k) == Ok(ValuePtr(Ptr(NameOf(n, k).value), heap))
    ensures NameOf(n, k).None? ==>
      GetNameByIndex(file, heap, m, k) == GetNameByIndex(file, heap, m, Predecessor(k))
  {
    if NameOf(n, k).None? {
      AbsentKindAliasesPredecessor(m, k);
    } else if HasName(m) || HasMangledName(m) {
      TableNameRoundTrip(file, heap, m, n, k);
    }
  }

  /** The table form of the names round trip: the slot the cascade picks holds
      the string the writer stored for that kind. */
  lemma TableNameRoundTrip(file: seq<Byte>, heap: int, m: SwiftMeta, n: RecordNames, k: SwiftNameIndex)
    requires Announces(m, n) && NamesStored(file, heap, m, n)
    requires HasName(m) || HasMangledName(m)
    requires NameOf(n, k).Some?
    ensures GetNameByIndex(file, heap, m, k) == Ok(ValuePtr(Ptr(NameOf(n, k).value), heap))
  {
    var r := Rank(m, k);
    SlotIsRank(m, k);
    NameTableAtRank(m, n, k);
    ReadI32sOfEncoded(file, heap + m.names.offset, NameTable(n), r);
    TableSlotReads(file, heap, m, k, r, NameOf(n, k).value);
  }

  /** A table-form accessor yields the string in the slot the cascade picks. */
  lemma TableSlotReads(file: seq<Byte>, heap: int, m: SwiftMeta, k: SwiftNameIndex, i: int, v: Int32)
    requires SlotOf(m, k) == TableSlot(i) && !IsNull(m.names)
    requires ReadI32(file, heap + m.names.offset + SizeOfOffsetPtr * i) == Ok(v)
    ensures GetNameByIndex(file, heap, m, k) == Ok(ValuePtr(Ptr(v), heap))
  {
  }

  // ---------------------------------------------------------------------------
  // The header in the file

  /** The header at `at`: name field, module offset and flags, packed back to back. */
  function DecodeMeta(file: seq<Byte>, at: int): (r: Read<SwiftMeta>)
    ensures r.Ok? <==> InBounds(file, at, SizeOfSwiftMeta)
  {
    var names :- ReadI32(file, at);
    var owner :- ReadI32(file, at + 4);
    var flags :- ReadU16(file, at + 8);
    Ok(SwiftMeta(Ptr(names), Ptr(owner), flags as bv16))
  }

  /** The bytes a writer emits for a header. */
  function EncodeMeta(m: SwiftMeta): (w: seq<Byte>)
    ensures |w| == SizeOfSwiftMeta
  {
    EncodeI32(m.names.offset) + EncodeI32(m.topLevelModule.offset) + EncodeU16(m.flags as int)
  }

  lemma DecodeEncodeMeta(pre: seq<Byte>, m: SwiftMeta, post: seq<Byte>)
    ensures DecodeMeta(pre + EncodeMeta(m) + post, |pre|) == Ok(m)
  {
    var file := pre + EncodeMeta(m) + post;
    var e1, e2, e3 := EncodeI32(m.names.offset), EncodeI32(m.topLevelModule.offset), EncodeU16(m.flags as int);
    assert file == pre + e1 + (e2 + e3 + post);
    ReadI32Between(pre, m.names.offset, e2 + e3 + post);
    assert file == (pre + e1) + e2 + (e3 + post);
    ReadI32Between(pre + e1, m.topLevelModule.offset, e3 + post);
    assert file[|pre| + 8..|pre| + 10] == e3;
    ReadU16OfEncoded(file, |pre| + 8, m.flags as int);
  }

  /** `SwiftPtrTo<SwiftMeta>::value()`: the header an offset pointer designates. */
  function MetaAt(file: seq<Byte>, heap: int, p: Ptr): (r: Read<SwiftMeta>)
    ensures IsNull(p) ==> r == Err(NullDereference)
  {
    match ValuePtr(p, heap)
    case None => Err(NullDereference)
    case Some(at) => DecodeMeta(file, at)
  }

  /** Headers stored back to back are reached by typed steps of the record
      pointer: step `i` from the first one designates header `i`. */
  lemma MetaAtStep(file: seq<Byte>, heap: int, p: Ptr, ms: seq<SwiftMeta>, i: nat)
    requires i < |ms| && IsInt32(p.offset + i * SizeOfSwiftMeta)
    requires !IsNull(Add(p, i, SizeOfSwiftMeta))
    requires var at := heap + p.offset + i * SizeOfSwiftMeta;
      InBounds(file, at, SizeOfSwiftMeta) && file[at..at + SizeOfSwiftMeta] == EncodeMeta(ms[i])
    ensures MetaAt(file, heap, Add(p, i, SizeOfSwiftMeta)) == Ok(ms[i])
  {
    var at := heap + p.offset + i * SizeOfSwiftMeta;
    assert file == file[..at] + EncodeMeta(ms[i]) + file[at + SizeOfSwiftMeta..];
    DecodeEncodeMeta(file[..at], ms[i], file[at + SizeOfSwiftMeta..]);
  }
}

=== FILE: meta_file.dfy ===
/**
 `SwiftMetaFile` and `SwiftGlobalTable`: the metadata file starts with three
 global tables (by JS name, native protocols, native interfaces), then the
 top-level module table, then the heap that every offset pointer is relative
 to. No section's start is stored: each one begins where the previous one
 ends, at its start plus its self-reported `sizeInBytes()`.
 */
module MetaFile {
  import opened Wrappers
  import opened Bytes
  import opened Pointers

  /** `Array<T>::sizeInBytes()` as the `int` that `sizeInBytes()` returns: the
      count field followed by `count` elements, narrowed to 32 bits. */
  function ArraySizeInBytes(count: Int32, elementSize: nat): (r: Int32)
    ensures IsInt32(SizeOfArrayCount + elementSize * count) ==> r == SizeOfArrayCount + elementSize * count
  {
    Narrow32(SizeOfArrayCount + elementSize * count)
  }

  /** Whether a table of `count` offset pointers has a `sizeInBytes()` that
      fits the `int` it is returned in, so that the next section follows it. */
  predicate CountFits(count: int) {
    0 <= count && SizeOfArrayCount + SizeOfOffsetPtr * count < 0x8000_0000
  }

  /** `sizeInBytes()` of a table at `at` whose only field is an array of offset
      pointers: `SwiftGlobalTable` (its `buckets`) and `ModuleTable` (its `modules`). */
  function TableSizeInBytes(file: seq<Byte>, at: int): (r: Read<Int32>)
    ensures r.Ok? <==> InBounds(file, at, SizeOfArrayCount)
    ensures r.Ok? && CountFits(ReadI32(file, at).value) ==>
      r.value == SizeOfArrayCount + SizeOfOffsetPtr * ReadI32(file, at).value
  {
    var count :- ReadI32(file, at);
    Ok(ArraySizeInBytes(count, SizeOfOffsetPtr))
  }

  /** A count too large for the 32-bit size wraps it negative: the table would
      report a next section that starts before it. */
  lemma LargeCountWraps()
    ensures ArraySizeInBytes(0x2000_0000, SizeOfOffsetPtr) == -0x7FFF_FFFC
    ensures !CountFits(0x2000_0000)
  {
  }

  /** `offset(gt, gt->sizeInBytes())`: where the section after the table at `at` starts. */
  function After(file: seq<Byte>, at: int): (r: Read<int>)
    ensures r.Ok? <==> InBounds(file, at, SizeOfArrayCount)
  {
    var size :- TableSizeInBytes(file, at);
    Ok(at + size)
  }

  /** `globalTableJs()`: the first field of the file object, at its base. */
  const GlobalTableJs: int := 0

  /** `globalTableNativeProtocols()`: right after the JS-name table. */
  function GlobalTableNativeProtocols(file: seq<Byte>): (r: Read<int>)
    ensures r.Ok? <==> InBounds(file, GlobalTableJs, SizeOfArrayCount)
  {
    After(file, GlobalTableJs)
  }

  /** `globalTableNativeInterfaces()`: right after the protocols table. */
  function GlobalTableNativeInterfaces(file: seq<Byte>): (r: Read<int>)
    ensures r.Ok? <==>
      GlobalTableNativeProtocols(file).Ok? && InBounds(file, GlobalTableNativeProtocols(file).value, SizeOfArrayCount)
  {
    var gt :- GlobalTableNativeProtocols(file);
    After(file, gt)
  }

  /** `topLevelModulesTable()`: right after the interfaces table. */
  function TopLevelModulesTable(file: seq<Byte>): (r: Read<int>)
    ensures r.Ok? <==>
      GlobalTableNativeInterfaces(file).Ok? && InBounds(file, GlobalTableNativeInterfaces(file).value, SizeOfArrayCount)
  {
    var gt :- GlobalTableNativeInterfaces(file);
    After(file, gt)
  }

  /** `heap()`: the base every offset pointer is resolved against, right after
      the module table. */
  function Heap(file: seq<Byte>): (r: Read<int>)
    ensures r.Ok? <==>
      TopLevelModulesTable(file).Ok? && InBounds(file, TopLevelModulesTable(file).value, SizeOfArrayCount)
  {
    var mt :- TopLevelModulesTable(file);
    After(file, mt)
  }

  /** `valuePtr()` with the heap base taken from the file itself. */
  function Resolve(file: seq<Byte>, p: Ptr): (r: Read<Option<int>>)
    ensures r.Ok? <==> Heap(file).Ok?
    ensures r.Ok? ==> r.value == ValuePtr(p, Heap(file).value)
  {
    var heap :- Heap(file);
    Ok(ValuePtr(p, heap))
  }

  /** Position of a table iterator: a bucket and a slot within it. */
  datatype Cursor = Cursor(topLevelIndex: int, bucketIndex: int)

  /** `end()`: the iterator one past the last bucket. */
  function End(file: seq<Byte>, at: int): (r: Read<Cursor>)
    ensures r.Ok? <==> InBounds(file, at, SizeOfArrayCount)
    ensures r.Ok? ==> r.value.bucketIndex == 0
  {
    var count :- ReadI32(file, at);
    Ok(Cursor(count, 0))
  }

  /** The four table counts that fix the layout, read from the file, are
      non-negative and small enough for their sizes to fit an `int`. */
  predicate CountsFit(file: seq<Byte>)
  {
    && GlobalTableNativeProtocols(file).Ok?
    && GlobalTableNativeInterfaces(file).Ok?
    && TopLevelModulesTable(file).Ok?
    && ReadI32(file, GlobalTableJs).Ok? && CountFits(ReadI32(file, GlobalTableJs).value)
    && ReadI32(file, GlobalTableNativeProtocols(file).value).Ok?
    && CountFits(ReadI32(file, GlobalTableNativeProtocols(file).value).value)
    && ReadI32(file, GlobalTableNativeInterfaces(file).value).Ok?
    && CountFits(ReadI32(file, GlobalTableNativeInterfaces(file).value).value)
    && ReadI32(file, TopLevelModulesTable(file).value).Ok?
    && CountFits(ReadI32(file, TopLevelModulesTable(file).value).value)
  }

  /** Each section starts where the previous one ends, and with counts that fit
      the sections appear in file order, each at least a count field long. */
  lemma SectionsAscend(file: seq<Byte>)
    requires Heap(file).Ok?
    ensures GlobalTableNativeProtocols(file).Ok?
    ensures GlobalTableNativeInterfaces(file).Ok?
    ensures TopLevelModulesTable(file).Ok?
    ensures GlobalTableNativeProtocols(file) == After(file, GlobalTableJs)
    ensures GlobalTableNativeInterfaces(file) == After(file, GlobalTableNativeProtocols(file).value)
    ensures TopLevelModulesTable(file) == After(file, GlobalTableNativeInterfaces(file).value)
    ensures Heap(file) == After(file, TopLevelModulesTable(file).value)
    ensures CountsFit(file) ==>
      && GlobalTableJs + SizeOfArrayCount <= GlobalTableNativeProtocols(file).value
      && GlobalTableNativeProtocols(file).value + SizeOfArrayCount <= GlobalTableNativeInterfaces(file).value
      && GlobalTableNativeInterfaces(file).value + SizeOfArrayCount <= TopLevelModulesTable(file).value
      && TopLevelModulesTable(file).value + SizeOfArrayCount <= Heap(file).value
  {
  }

  /** The bytes a writer emits for a table of offset pointers: the count, then the pointers. */
  function TableImage(ptrs: seq<Int32>): (w: seq<Byte>)
    requires |ptrs| < 0x8000_0000
    ensures |w| == 4 + 4 * |ptrs|
  {
    EncodeI32(|ptrs|) + EncodeI32s(ptrs)
  }

  /** A table whose `sizeInBytes()` fits the `int` it is returned in. */
  predicate TableFits(ptrs: seq<Int32>) {
    CountFits(|ptrs|)
  }

  /** A whole file as the writer lays it out. */
  function FileImage(js: seq<Int32>, protocols: seq<Int32>, interfaces: seq<Int32>,
                     modules: seq<Int32>, heap: seq<Byte>): seq<Byte>
    requires TableFits(js) && TableFits(protocols) && TableFits(interfaces) && TableFits(modules)
  {
    TableImage(js) + TableImage(protocols) + TableImage(interfaces) + TableImage(modules) + heap
  }

  /** The count field of a table listing `ptrs` is stored at `at`. */
  predicate CountAt(file: seq<Byte>, at: int, ptrs: seq<Int32>)
    requires |ptrs| < 0x8000_0000
  {
    InBounds(file, at, SizeOfArrayCount) && file[at..at + SizeOfArrayCount] == EncodeI32(|ptrs|)
  }

  /** A table whose count field reads `|ptrs|` reports its `sizeInBytes()` (four
      bytes of count, four per pointer) and its end iterator. */
  lemma ReadTableAt(file: seq<Byte>, at: int, ptrs: seq<Int32>)
    requires TableFits(ptrs) && CountAt(file, at, ptrs)
    ensures After(file, at) == Ok(at + 4 + 4 * |ptrs|)
    ensures End(file, at) == Ok(Cursor(|ptrs|, 0))
  {
    ReadI32OfEncoded(file, at, |ptrs|);
  }

  /** Where the writer puts each table's count field, and the heap. */
  lemma PartsOfImage(js: seq<Int32>, protocols: seq<Int32>, interfaces: seq<Int32>,
                     modules: seq<Int32>, heap: seq<Byte>)
    requires TableFits(js) && TableFits(protocols) && TableFits(interfaces) && TableFits(modules)
    ensures var file := FileImage(js, protocols, interfaces, modules, heap);
      var p := 4 + 4 * |js|;
      var i := p + 4 + 4 * |protocols|;
      var m := i + 4 + 4 * |interfaces|;
      var h := m + 4 + 4 * |modules|;
      && CountAt(file, GlobalTableJs, js) && CountAt(file, p, protocols)
      && CountAt(file, i, interfaces) && CountAt(file, m, modules)
      && h + |heap| == |file| && file[h..] == heap
  {
    var tj, tp, ti, tm := TableImage(js), TableImage(protocols), TableImage(interfaces), TableImage(modules);
    var file := FileImage(js, protocols, interfaces, modules, heap);
    var p := 4 + 4 * |js|;
    var i := p + 4 + 4 * |protocols|;
    var m := i + 4 + 4 * |interfaces|;
    FiveWaySplits(tj, tp, ti, tm, heap);
    CountOfImage(file, [], js, tp + ti + tm + heap, GlobalTableJs);
    CountOfImage(file, tj, protocols, ti + tm + heap, p);
    CountOfImage(file, tj + tp, interfaces, tm + heap, i);
    CountOfImage(file, tj + tp + ti, modules, heap, m);
  }

  lemma CountOfImage(file: seq<Byte>, pre: seq<Byte>, ptrs: seq<Int32>, post: seq<Byte>, at: int)
    requires |ptrs| < 0x8000_0000
    requires file == pre + TableImage(ptrs) + post && at == |pre|
    ensures CountAt(file, at, ptrs)
  {
    assert file[at..at + SizeOfArrayCount] == EncodeI32(|ptrs|);
  }

  /** Given the four count fields where the writer puts them, the reader finds
      every section, and the heap, where the writer put them. */
  lemma LayoutOfCounts(file: seq<Byte>, js: seq<Int32>, protocols: seq<Int32>,
                       interfaces: seq<Int32>, modules: seq<Int32>)
    requires TableFits(js) && TableFits(protocols) && TableFits(interfaces) && TableFits(modules)
    requires var p := 4 + 4 * |js|;
      var i := p + 4 + 4 * |protocols|;
      var m := i + 4 + 4 * |interfaces|;
      && CountAt(file, GlobalTableJs, js) && CountAt(file, p, protocols)
      && CountAt(file, i, interfaces) && CountAt(file, m, modules)
    ensures var p := 4 + 4 * |js|;
      var i := p + 4 + 4 * |protocols|;
      var m := i + 4 + 4 * |interfaces|;
      var h := m + 4 + 4 * |modules|;
      && GlobalTableNativeProtocols(file) == Ok(p)
      && GlobalTableNativeInterfaces(file) == Ok(i)
      && TopLevelModulesTable(file) == Ok(m)
      && Heap(file) == Ok(h)
      && End(file, GlobalTableJs) == Ok(Cursor(|js|, 0))
      && End(file, p) == Ok(Cursor(|protocols|, 0))
      && End(file, i) == Ok(Cursor(|interfaces|, 0))
      && End(file, m) == Ok(Cursor(|modules|, 0))
  {
    var p := 4 + 4 * |js|;
    var i := p + 4 + 4 * |protocols|;
    var m := i + 4 + 4 * |interfaces|;
    var h := m + 4 + 4 * |modules|;
    TableEnds(file, js, protocols, interfaces, modules, p, i, m);
    SectionChain(file, p, i, m, h);
  }

  /** Each of the four count fields yields its table's end and iterator. */
  lemma TableEnds(file: seq<Byte>, js: seq<Int32>, protocols: seq<Int32>,
                  interfaces: seq<Int32>, modules: seq<Int32>, p: int, i: int, m: int)
    requires TableFits(js) && TableFits(protocols) && TableFits(interfaces) && TableFits(modules)
    requires && CountAt(file, GlobalTableJs, js) && CountAt(file, p, protocols)
             && CountAt(file, i, interfaces) && CountAt(file, m, modules)
    ensures && After(file, GlobalTableJs) == Ok(GlobalTableJs + 4 + 4 * |js|)
            && After(file, p) == Ok(p + 4 + 4 * |protocols|)
            && After(file, i) == Ok(i + 4 + 4 * |interfaces|)
            && After(file, m) == Ok(m + 4 + 4 * |modules|)
    ensures && End(file, GlobalTableJs) == Ok(Cursor(|js|, 0))
            && End(file, p) == Ok(Cursor(|protocols|, 0))
            && End(file, i) == Ok(Cursor(|interfaces|, 0))
            && End(file, m) == Ok(Cursor(|modules|, 0))
  {
    ReadTableAt(file, GlobalTableJs, js);
    ReadTableAt(file, p, protocols);
    ReadTableAt(file, i, interfaces);
    ReadTableAt(file, m, modules);
  }

  /** Four table ends found one after the other fix every section start. */
  lemma SectionChain(file: seq<Byte>, p: int, i: int, m: int, h: int)
    requires After(file, GlobalTableJs) == Ok(p) && After(file, p) == Ok(i)
    requires After(file, i) == Ok(m) && After(file, m) == Ok(h)
    ensures GlobalTableNativeProtocols(file) == Ok(p)
    ensures GlobalTableNativeInterfaces(file) == Ok(i)
    ensures TopLevelModulesTable(file) == Ok(m)
    ensures Heap(file) == Ok(h)
  {
  }

  /** The groupings of a five-part file image that the layout proof steps through. */
  lemma FiveWaySplits(a: seq<Byte>, b: seq<Byte>, c: seq<Byte>, d: seq<Byte>, e: seq<Byte>)
    ensures a + b + c + d + e == [] + a + (b + c + d + e)
    ensures a + b + c + d + e == a + b + (c + d + e)
    ensures a + b + c + d + e == (a + b) + c + (d + e)
    ensures a + b + c + d + e == (a + b + c) + d + e
    ensures (a + b + c + d + e)[|a + b + c + d|..] == e
  {
  }

  /** The reader finds every section of a file image, and its heap, exactly
      where the writer put them. */
  lemma LayoutOfImage(js: seq<Int32>, protocols: seq<Int32>, interfaces: seq<Int32>,
                      modules: seq<Int32>, heap: seq<Byte>)
    requires TableFits(js) && TableFits(protocols) && TableFits(interfaces) && TableFits(modules)
    ensures var file := FileImage(js, protocols, interfaces, modules, heap);
      var p := 4 + 4 * |js|;
      var i := p + 4 + 4 * |protocols|;
      var m := i + 4 + 4 * |interfaces|;
      var h := m + 4 + 4 * |modules|;
      && GlobalTableNativeProtocols(file) == Ok(p)
      && GlobalTableNativeInterfaces(file) == Ok(i)
      && TopLevelModulesTable(file) == Ok(m)
      && Heap(file) == Ok(h) && file[h..] == heap
      && End(file, GlobalTableJs) == Ok(Cursor(|js|, 0))
      && End(file, p) == Ok(Cursor(|protocols|, 0))
      && End(file, i) == Ok(Cursor(|interfaces|, 0))
      && End(file, m) == Ok(Cursor(|modules|, 0))
  {
    PartsOfImage(js, protocols, interfaces, modules, heap);
    LayoutOfCounts(FileImage(js, protocols, interfaces, modules, heap), js, protocols, interfaces, modules);
  }

  /** Every offset pointer of a well-formed file resolves against the byte just
      after the module table. */
  lemma ResolveInImage(js: seq<Int32>, protocols: seq<Int32>, interfaces: seq<Int32>,
                       modules: seq<Int32>, heap: seq<Byte>, p: Ptr)
    requires TableFits(js) && TableFits(protocols) && TableFits(interfaces) && TableFits(modules)
    ensures var file := FileImage(js, protocols, interfaces, modules, heap);
      Resolve(file, p) == Ok(ValuePtr(p, 16 + 4 * (|js| + |protocols| + |interfaces| + |modules|)))
  {
    var file := FileImage(js, protocols, interfaces, modules, heap);
    LayoutOfImage(js, protocols, interfaces, modules, heap);
    ResolveAgainst(file, 16 + 4 * (|js| + |protocols| + |interfaces| + |modules|), p);
  }

  lemma ResolveAgainst(file: seq<Byte>, h: int, p: Ptr)
    requires Heap(file) == Ok(h)
    ensures Resolve(file, p) == Ok(ValuePtr(p, h))
  {
  }
}

=== FILE: pointers.dfy ===
/**
 `SwiftPtrTo<T>`: a 32-bit offset relative to the base of the metadata
 heap. Offset 0 is the null sentinel. Arithmetic moves the offset and never
 touches the file; only resolving against a heap base produces an address.
 The specialisation `SwiftPtrTo<SwiftMeta>` behaves the same with a stride
 of `sizeof(SwiftMeta)`.
 */
module Pointers {
  import opened Wrappers
  import opened Bytes

  /** `sizeof` of the pointee types, with every struct packed to 1-byte alignment. */
  const SizeOfOffsetPtr: nat := 4                   // any SwiftPtrTo<T>: one int32_t
  const SizeOfSwiftMeta: nat := 10                  // names (4) + top-level module (4) + flags (2)
  const SizeOfArrayCount: nat := 4                  // ArrayCount, the int32_t heading every Array<T>

  datatype Ptr = Ptr(offset: Int32)

  const NullPtr := Ptr(0)

  /** `isNull()`: offset 0 is the sentinel, so the null pointer is unique. */
  predicate IsNull(p: Ptr)
    ensures IsNull(p) <==> p == NullPtr
  {
    p.offset == 0
  }

  /** The `int32_t` an integer is narrowed to: the value of the same residue
      modulo 2^32 in the signed range. */
  function Narrow32(x: int): (r: Int32)
    ensures IsInt32(x) ==> r == x
    decreases if x >= 0x8000_0000 then x else if x < -0x8000_0000 then -x else 0
  {
    if x >= 0x8000_0000 then Narrow32(x - 0x1_0000_0000)
    else if x < -0x8000_0000 then Narrow32(x + 0x1_0000_0000)
    else x
  }

  /** Narrowing keeps the residue modulo 2^32. */
  lemma {:induction false} Narrow32Residue(x: int)
    ensures (Narrow32(x) - x) % 0x1_0000_0000 == 0
    decreases if x >= 0x8000_0000 then x else if x < -0x8000_0000 then -x else 0
  {
    if x >= 0x8000_0000 {
      Narrow32Residue(x - 0x1_0000_0000);
    } else if x < -0x8000_0000 {
      Narrow32Residue(x + 0x1_0000_0000);
    }
  }

  /** `add(n)` (also `operator+`): moves the offset by `n` elements of size
      `stride`; the sum is computed at full width and narrowed back to `int32_t`. */
  function Add(p: Ptr, n: int, stride: nat): (r: Ptr)
    ensures (r.offset - (p.offset + n * stride)) % 0x1_0000_0000 == 0
    ensures IsInt32(p.offset + n * stride) ==> r.offset - p.offset == n * stride
  {
    Narrow32Residue(p.offset + n * stride);
    Ptr(Narrow32(p.offset + n * stride))
  }

  /** `addBytes(n)`: moves the offset by exactly `n` bytes. */
  function AddBytes(p: Ptr, n: int): (r: Ptr)
    requires IsInt32(p.offset + n)
    ensures r.offset - p.offset == n
  {
    Ptr(p.offset + n)
  }

  /** `valuePtr()` (also `operator->`): null for the sentinel, otherwise the heap base plus the offset. */
  function ValuePtr(p: Ptr, heap: int): (r: Option<int>)
    ensures r.None? <==> p.offset == 0
    ensures r.Some? ==> r.value - heap == p.offset
  {
    if IsNull(p) then None else Some(heap + p.offset)
  }

  /** Moving by zero elements or zero bytes changes nothing. */
  lemma AddZeroIsIdentity(p: Ptr, stride: nat)
    ensures Add(p, 0, stride) == p
    ensures AddBytes(p, 0) == p
  {
  }

  /** A typed step is a byte step of `n * stride`. */
  lemma AddIsScaledAddBytes(p: Ptr, n: int, stride: nat)
    requires IsInt32(p.offset + n * stride)
    ensures Add(p, n, stride) == AddBytes(p, n * stride)
  {
  }

  /** Adding whole multiples of 2^32 does not change the narrowed value. */
  lemma {:induction false} Narrow32Shift(x: int, k: int)
    ensures Narrow32(x + k * 0x1_0000_0000) == Narrow32(x)
    decreases if k < 0 then -k else k
  {
    if k > 0 {
      Narrow32Shift(x, k - 1);
      var z := x + k * 0x1_0000_0000;
      assert Narrow32(z) == Narrow32(z - 0x1_0000_0000);
    } else if k < 0 {
      Narrow32Shift(x, k + 1);
      var z := x + k * 0x1_0000_0000;
      assert Narrow32(z + 0x1_0000_0000) == Narrow32(z);
    }
  }

  /** Two integers of the same residue modulo 2^32 narrow to the same `int32_t`. */
  lemma Narrow32Congruent(x: int, y: int)
    requires (x - y) % 0x1_0000_0000 == 0
    ensures Narrow32(x) == Narrow32(y)
  {
    var q := (x - y) / 0x1_0000_0000;
    assert x == y + q * 0x1_0000_0000;
    Narrow32Shift(y, q);
  }

  /** Two typed steps compose into one, whatever the sums: each step narrows
      modulo 2^32, so wrap-arounds compose too. */
  lemma AddComposes(p: Ptr, a: int, b: int, stride: nat)
    ensures Add(Add(p, a, stride), b, stride) == Add(p, a + b, stride)
  {
    var mid := Add(p, a, stride);
    assert mid.offset + b * stride - (p.offset + (a + b) * stride)
        == mid.offset - (p.offset + a * stride);
    Narrow32Congruent(mid.offset + b * stride, p.offset + (a + b) * stride);
  }

  /** A byte step is undone by its negation. */
  lemma AddBytesUndo(p: Ptr, n: int)
    requires IsInt32(p.offset + n)
    ensures AddBytes(AddBytes(p, n), -n) == p
  {
  }

  /** Resolution commutes with arithmetic: a non-null pointer moved to a non-null
      offset resolves exactly `n` bytes further into the heap. */
  lemma ValuePtrOfAddBytes(p: Ptr, n: int, heap: int)
    requires IsInt32(p.offset + n)
    requires !IsNull(p) && !IsNull(AddBytes(p, n))
    ensures ValuePtr(AddBytes(p, n), heap) == Some(ValuePtr(p, heap).value + n)
  {
  }

  /** Distinct offsets resolve to distinct results: null only for the sentinel,
      and different addresses for different non-null offsets. */
  lemma ValuePtrInjective(p: Ptr, q: Ptr, heap: int)
    ensures ValuePtr(p, heap) == ValuePtr(q, heap) <==> p == q
  {
  }
}

=== FILE: type_encodings.dfy ===
/**
 `SwiftTypeEncoding` and `SwiftTypeEncodingsList<T>`: a signature is a count
 followed by that many type-encoding nodes. Every kind the format defines
 today (void, bool, int, instance type) is a lone one-byte tag, so `next()`
 always steps over exactly one byte. A function record ends with an offset
 to its signature list.
 */
module TypeEncodings {
  import opened Wrappers
  import opened Bytes
  import opened Pointers

  /** `SwiftBinaryTypeEncodingType`: a `uint8_t` tag. Bytes past the listed kinds
      are still representable, and `next()` treats them like every other tag. */
  datatype SwiftBinaryTypeEncodingType =
    | SwiftVoidEncoding
    | SwiftBoolEncoding
    | SwiftIntEncoding
    | SwiftInstanceTypeEncoding
    | UnlistedEncoding(tag: Byte)

  /** Each tag byte has one reading: an unlisted tag is not one of the listed values. */
  predicate WellFormed(t: SwiftBinaryTypeEncodingType) {
    t.UnlistedEncoding? ==> t.tag >= 4
  }

  function TagOf(t: SwiftBinaryTypeEncodingType): Byte {
    match t
    case SwiftVoidEncoding => 0
    case SwiftBoolEncoding => 1
    case SwiftIntEncoding => 2
    case SwiftInstanceTypeEncoding => 3
    case UnlistedEncoding(tag) => tag
  }

  function TypeOfTag(b: Byte): (t: SwiftBinaryTypeEncodingType)
    ensures WellFormed(t)
    ensures TagOf(t) == b
  {
    if b == 0 then SwiftVoidEncoding
    else if b == 1 then SwiftBoolEncoding
    else if b == 2 then SwiftIntEncoding
    else if b == 3 then SwiftInstanceTypeEncoding
    else UnlistedEncoding(b)
  }

  lemma TypeOfTagOf(t: SwiftBinaryTypeEncodingType)
    requires WellFormed(t)
    ensures TypeOfTag(TagOf(t)) == t
  {
  }

  /** `sizeof(SwiftTypeEncoding::type)`. */
  const SizeOfTypeTag: nat := 1

  /** `SwiftTypeEncodingsList<T>::first()`: the first node sits right after the
      count field of `sizeof(T)` bytes. */
  function First(list: int, sizeOfCount: nat): (r: int)
    ensures r - list == sizeOfCount
  {
    list + sizeOfCount
  }

  /** `SwiftTypeEncoding::next()` for the node at `at`. Its switch reads the tag
      and its only live branch (the default) returns the address right after it. */
  function Next(file: seq<Byte>, at: int): (r: Read<int>)
    ensures r.Ok? <==> InBounds(file, at, SizeOfTypeTag)
    ensures r.Ok? ==> r.value == at + SizeOfTypeTag
  {
    var _ :- ReadU8(file, at);
    Ok(at + SizeOfTypeTag)
  }

  /** `n` successive `next()` calls from `at`. */
  function Advance(file: seq<Byte>, at: int, n: nat): (r: Read<int>)
    ensures r.Ok? <==> n == 0 || InBounds(file, at, n)
    ensures r.Ok? ==> r.value == at + n
    decreases n
  {
    if n == 0 then Ok(at)
    else
      var after :- Next(file, at);
      Advance(file, after, n - 1)
  }

  /** The kinds of the `n` nodes starting at `at`, visited with `next()`. */
  function DecodeNodes(file: seq<Byte>, at: int, n: nat): (r: Read<seq<SwiftBinaryTypeEncodingType>>)
    ensures r.Ok? <==> n == 0 || InBounds(file, at, n)
    ensures r.Ok? ==> |r.value| == n
    ensures r.Ok? ==> forall j :: 0 <= j < n ==> r.value[j] == TypeOfTag(file[at + j])
    decreases n
  {
    if n == 0 then Ok([])
    else
      var after :- Next(file, at);
      var rest :- DecodeNodes(file, after, n - 1);
      Ok([TypeOfTag(file[at])] + rest)
  }

  /** A decoded signature: its node kinds and the address just past its last node. */
  datatype Signature = Signature(types: seq<SwiftBinaryTypeEncodingType>, end: int)

  /** A `count`-prefixed list of nodes at `list`; a negative count visits no
      node, as a `for (i = 0; i < count; i++)` walk would. */
  function DecodeList(file: seq<Byte>, list: int): (r: Read<Signature>)
    ensures r.Ok? ==> ReadI32(file, list).Ok?
    ensures r.Ok? ==> var count := ReadI32(file, list).value;
      && |r.value.types| == (if count < 0 then 0 else count)
      && Advance(file, First(list, SizeOfArrayCount), |r.value.types|) == Ok(r.value.end)
  {
    var count :- ReadI32(file, list);
    var n := if count < 0 then 0 else count;
    var first := First(list, SizeOfArrayCount);
    var types :- DecodeNodes(file, first, n);
    Ok(Signature(types, first + n))
  }

  /** The cursor walk callers perform over a signature, `current = current->next()`
      once per node; it visits exactly `count` nodes and ends where the list ends. */
  method WalkList(file: seq<Byte>, list: int) returns (r: Read<Signature>)
    ensures r.Ok? <==> DecodeList(file, list).Ok?
    ensures r.Ok? ==> r == DecodeList(file, list)
  {
    var count := ReadI32(file, list);
    if count.Err? {
      return Err(count.error);
    }
    var c: int := count.value;
    var first := First(list, SizeOfArrayCount);
    var current := first;
    var types: seq<SwiftBinaryTypeEncodingType> := [];
    var i: int := 0;
    while i < c
      invariant 0 <= i <= (if c < 0 then 0 else c)
      invariant current == first + i
      invariant i == 0 || InBounds(file, first, i)
      invariant |types| == i
      invariant forall j :: 0 <= j < i ==> types[j] == TypeOfTag(file[first + j])
    {
      var next := Next(file, current);
      if next.Err? {
        return Err(next.error);
      }
      types := types + [TypeOfTag(file[current])];
      current := next.value;
      i := i + 1;
    }
    ghost var n := if c < 0 then 0 else c;
    assert i == n;
    var decoded := DecodeNodes(file, first, n);
    assert decoded.Ok? && decoded.value == types;
    return Ok(Signature(types, current));
  }

  /** The bytes a writer emits for a signature: the count, then one tag per node. */
  function EncodeList(ts: seq<SwiftBinaryTypeEncodingType>): (w: seq<Byte>)
    requires |ts| < 0x8000_0000
    ensures |w| == SizeOfArrayCount + |ts|
  {
    EncodeI32(|ts|) + seq(|ts|, j requires 0 <= j < |ts| => TagOf(ts[j]))
  }

  /** Decoding `n` tags stored between two arbitrary byte runs yields their kinds. */
  lemma NodesBetween(head: seq<Byte>, ts: seq<SwiftBinaryTypeEncodingType>, post: seq<Byte>)
    requires forall j :: 0 <= j < |ts| ==> WellFormed(ts[j])
    ensures var tags := seq(|ts|, j requires 0 <= j < |ts| => TagOf(ts[j]));
      DecodeNodes(head + tags + post, |head|, |ts|) == Ok(ts)
  {
    var tags := seq(|ts|, j requires 0 <= j < |ts| => TagOf(ts[j]));
    var file := head + tags + post;
    var decoded := DecodeNodes(file, |head|, |ts|);
    assert decoded.Ok?;
    forall j | 0 <= j < |ts|
      ensures decoded.value[j] == ts[j]
    {
      assert file[|head| + j] == tags[j];
      TypeOfTagOf(ts[j]);
    }
    assert decoded.value == ts;
  }

  /** Signature round trip: decoding what the writer emitted gives back its
      node kinds, and the walk ends exactly `count` bytes past `first()`. */
  lemma ListRoundTrip(pre: seq<Byte>, ts: seq<SwiftBinaryTypeEncodingType>, post: seq<Byte>)
    requires |ts| < 0x8000_0000
    requires forall j :: 0 <= j < |ts| ==> WellFormed(ts[j])
    ensures DecodeList(pre + EncodeList(ts) + post, |pre|)
         == Ok(Signature(ts, First(|pre|, SizeOfArrayCount) + |ts|))
  {
    var tags := seq(|ts|, j requires 0 <= j < |ts| => TagOf(ts[j]));
    var file := pre + EncodeList(ts) + post;
    assert file == pre + EncodeI32(|ts|) + (tags + post);
    ReadI32Between(pre, |ts|, tags + post);
    assert file == (pre + EncodeI32(|ts|)) + tags + post;
    NodesBetween(pre + EncodeI32(|ts|), ts, post);
  }

  /** Offset of `SwiftFunctionMeta::_encoding`: right after the common header. */
  const EncodingFieldOffset: nat := SizeOfSwiftMeta

  /** `SwiftFunctionMeta::encodings()` for the function record at `record`. */
  function Encodings(file: seq<Byte>, heap: int, record: int): (r: Read<Option<int>>)
    ensures r.Ok? <==> InBounds(file, record + EncodingFieldOffset, 4)
    ensures r.Ok? ==> r.value == ValuePtr(Ptr(ReadI32(file, record + EncodingFieldOffset).value), heap)
  {
    var offset :- ReadI32(file, record + EncodingFieldOffset);
    Ok(ValuePtr(Ptr(offset), heap))
  }

  /** The signature of the function record at `record`; a null `_encoding`
      offset cannot be dereferenced. */
  function FunctionSignature(file: seq<Byte>, heap: int, record: int): (r: Read<Signature>)
    ensures Encodings(file, heap, record) == Ok(None) ==> r == Err(NullDereference)
  {
    var list :- Encodings(file, heap, record);
    match list
    case None => Err(NullDereference)
    case Some(at) => DecodeList(file, at)
  }

  /** A function record whose `_encoding` field holds a non-null offset leads to
      the list written at that offset from the heap base: the walk yields the
      written kinds and ends `count` bytes past `first()`. */
  lemma SignatureOfRecord(file: seq<Byte>, heap: int, record: int, offset: Int32,
                          ts: seq<SwiftBinaryTypeEncodingType>)
    requires offset != 0 && |ts| < 0x8000_0000
    requires forall j :: 0 <= j < |ts| ==> WellFormed(ts[j])
    requires var at := record + EncodingFieldOffset;
      InBounds(file, at, 4) && file[at..at + 4] == EncodeI32(offset)
    requires var at := heap + offset;
      InBounds(file, at, SizeOfArrayCount + |ts|) && file[at..at + SizeOfArrayCount + |ts|] == EncodeList(ts)
    ensures FunctionSignature(file, heap, record)
         == Ok(Signature(ts, First(heap + offset, SizeOfArrayCount) + |ts|))
  {
    ReadI32OfEncoded(file, record + EncodingFieldOffset, offset);
    var at := heap + offset;
    var end := at + SizeOfArrayCount + |ts|;
    assert file == file[..at] + EncodeList(ts) + file[end..];
    ListRoundTrip(file[..at], ts, file[end..]);
  }
}

=== FILE: wrappers.dfy ===
/** Failure-compatible wrappers used by every reader of the metadata file. */
module Wrappers {

  /** A value or nothing; stands for a C pointer that may be null. */
  datatype Option<+T> = None | Some(value: T)

  /** A value or an error; usable with `:-`. */
  datatype Result<+T, +E> = Ok(value: T) | Err(error: E) {

    predicate IsFailure() {
      Err?
    }

    function PropagateFailure<U>(): Result<U, E>
      requires Err?
    {
      Err(error)
    }

    function Extract(): T
      requires Ok?
    {
      value
    }
  }
}
